=== FILE: README.md ===
# ofxSURFTracker — a Dafny model of the per-frame tracking bookkeeping

`ofxSURFTracker` is an openFrameworks add-on. It tracks one learned planar object through camera frames. On each frame it does the following:

- crops a fixed detection window from the centre of the frame;
- extracts SURF keypoints and descriptors (the scene signature);
- matches them against the learned object signature;
- filters the matches;
- fits a homography when there are enough good matches;
- maps the object's reference polygon through that homography;
- raises or lowers a confidence score, `objectLifeTime`.

`learnFeatures` turns the current scene into the object. `transFormPoints` maps caller points through the last homography, but only once the object is fully trusted.

This project models that bookkeeping as pure functions over an immutable `Tracker` record. The OpenCV engine is treated as opaque. The modules are:

- `Numeric`: `Min`, `Max`, and C++ truncating division by two.
- `Geometry`: points, the centred crop region, and the bounding box / reference polygon built as `ofRectangle::growToInclude` builds it.
- `Features`: keypoints, descriptors, matches, frames and the opaque homography. The engine is an `Engine` record of four total functions:
  - `extract` covers detection and description inside a region;
  - `matcher` covers FLANN matching;
  - `fit` covers `findHomography`;
  - `project` maps one point through a homography.

  `perspectiveTransform` is modelled as `project` applied to each point in order. `Engine.Valid()` states what the tracker relies on from OpenCV: extracted keypoints and descriptors are index-aligned, and match indices lie inside the two descriptor sets.
- `Matching`: the empty-descriptor guard, the minimum-distance scan seeded with 100, and the dual filter `d < 3·min_dist && d < distanceThreshold`.
- `Lifetime`: the ±0.05 step with clamping to [0, 1], and runs of frames.
- `SurfTracker`: the state, the constructor defaults (`Init`) and the five operations:
  - `SetSize`;
  - `DetectImage`, the guarded `detect(ofImage&)`;
  - `DetectPixels`, the `detect(pix, W, H)` step;
  - `Learn`;
  - `TransformPoints`.

  `NumGoodMatches` is `getNumGoodMatches` (src/ofxSURFTracker.cpp:70-72). The state invariant `Tracker.Valid()` holds of every reachable state. It says:
  - both signatures are aligned;
  - the reference polygon has four points, or nothing has been learned;
  - the lifetime lies in [0, 1];
  - the transformed polygon is empty or as long as the reference polygon.
- `Tracking`: multi-frame runs (all frames locked, none locked, any frames), the demo application's learn-then-detect call order, and arbitrary call sequences.
- `DescriptorSharing`: `learnFeatures` and the detection step as the code is written, where the object descriptor matrix shares the scene matrix's buffer (see "## Findings"). Everything else in the model uses the intended copy.

The model follows these details of the code:
- `object_transformed` is cleared on every detection (src/ofxSURFTracker.cpp:219). It does not keep the last locked value.
- `transFormPoints` is gated on `objectLifeTime >= 1` (src/ofxSURFTracker.cpp:277).
- The lifetime rises whenever `good_matches.size() > minMatches`, even when the inner "more than 5 pairs" test fails and no homography is fitted (src/ofxSURFTracker.cpp:220-233).
- `minMatches` is a `float` field. The lock test is therefore `|good| > minMatches` over reals. A negative `minMatches` locks with zero matches, which is why `UnlearnedTrackerStaysIdle` asks for `minMatches >= 0`.
- `transFormPoints` rebuilds every point from x and y only, so mapped points come back with z = 0.
- The crop corner uses C++ integer division, which truncates toward zero, and the model computes it for any frame size because `detect(pix, W, H)` is public and has no size guard (the demo application calls it directly). For a frame smaller than the window the truncated corner is not what gets cropped: ofxOpenCv's `setROI` clamps the region to the image first, and line 166 then copies `width×height` pixels out of the smaller region, reading past its end. The model stops at the corner arithmetic of lines 158-159.
- `DetectorParams.upright` is passed as the fourth constructor argument of `SurfFeatureDetector` (src/ofxSURFTracker.cpp:177-180). In OpenCV 2.4 that slot of `SURF(hessianThreshold, nOctaves, nOctaveLayers, extended, upright)` is `extended`, so setting `bUpright` asks for extended descriptors from the detector and never makes detection upright. The engine is opaque, so the model only carries the flag.
- A best raw distance of 0 empties the filter, because no distance is below 3·0 (`PerfectMatchRejectsAll`).

## Model

| member | source | states |
|---|---|---|
| `Numeric.HalfTowardZero` | src/ofxSURFTracker.cpp:158-159 | the crop corner's `/2` truncates toward zero: for n ≥ 0, 2h ≤ n ≤ 2h+1; for n < 0, 2h−1 ≤ n ≤ 2h |
| `Geometry.CropRegion` | src/ofxSURFTracker.cpp:158-163 | the region of interest is w×h; when W ≥ w and H ≥ h its corner is ((W−w)/2, (H−h)/2), it lies inside the frame, and it is centred (the far margin equals the near one or is one pixel larger) |
| `Geometry.Bounds` | src/ofxSURFTracker.cpp:253-261 | growing a box from the first keypoint through every keypoint gives the least and greatest x and y, each attained by some keypoint |
| `Geometry.BoundingPolygon` | src/ofxSURFTracker.cpp:252-267 | the reference polygon has 4 points; with no keypoints all four are (0,0); otherwise point 0 has the least x and y and point 2 the greatest, with point 1 = (maxx, miny) and point 3 = (minx, maxy) |
| `Geometry.BoundingPolygonIsExtremes` | src/ofxSURFTracker.cpp:262-267 | for any box whose sides are the extreme coordinates of the keypoints, the polygon is exactly [(minx,miny), (maxx,miny), (maxx,maxy), (minx,maxy)] |
| `Matching.RawMatches` | src/ofxSURFTracker.cpp:193-196 | if either descriptor set is empty there are no raw matches; otherwise they are the matcher's, with indices inside both sets |
| `Matching.MinDistance` | src/ofxSURFTracker.cpp:199-205 | the minimum distance is at most 100, at most every raw distance, and is either 100 or one of the raw distances |
| `Matching.GoodMatches` | src/ofxSURFTracker.cpp:208-213 | every kept match is a raw match passing both `d < 3·min_dist` and `d < distanceThreshold`; every raw match passing both is kept; no more matches than raw ones |
| `Matching.GoodMatchesSelectsInOrder` | src/ofxSURFTracker.cpp:209-213 | the good matches are the raw matches at a strictly increasing list of positions, which are exactly the positions whose match passes the test |
| `Matching.NoneKeptMeansEmpty` | src/ofxSURFTracker.cpp:208-213 | when no raw match passes the test, the good-match list is empty |
| `Matching.PerfectMatchRejectsAll` | src/ofxSURFTracker.cpp:199-213 | if some raw distance is 0 (or less), the filter keeps nothing |
| `Lifetime.Clamp` | src/ofxSURFTracker.cpp:238-242 | the clamped lifetime lies in [0, 1], equals the input inside it, and is the point of [0, 1] nearest the input |
| `Lifetime.NextLifeTime` | src/ofxSURFTracker.cpp:220-242 | one frame's update lies in [0, 1]; from inside [0, 1] it is min(1, l + 0.05) on a lock and max(0, l − 0.05) otherwise |
| `Lifetime.RunStaysInRange` | src/ofxSURFTracker.cpp:231-242 | the lifetime stays in [0, 1] over any run of frames |
| `Lifetime.LockedRunRises` | src/ofxSURFTracker.cpp:231-233 | n locked frames from l give min(1, l + n·0.05) |
| `Lifetime.UnlockedRunDecays` | src/ofxSURFTracker.cpp:234-237 | n unlocked frames from l give max(0, l − n·0.05) |
| `Lifetime.LockedFromZero` | src/ofxSURFTracker.cpp:231-233 | from 0, n locked frames give min(1, n·0.05), which is 1 from the twentieth frame on |
| `Lifetime.RunRisesAtMostOneStepPerFrame` | src/ofxSURFTracker.cpp:231-242 | after n frames the lifetime is at most l + n·0.05 |
| `Lifetime.TrustNeedsTwentyFrames` | src/ofxSURFTracker.cpp:231-242 | reaching lifetime 1 from 0 takes at least twenty frames |
| `SurfTracker.Init` | src/ofxSURFTracker.cpp:11-25 | a new tracker has a 320×240 window, distanceThreshold 0.2, minMatches 5, Hessian threshold 500, 3 octaves, 4 layers, nothing learned or matched, no homography and lifetime 0, and satisfies the invariant |
| `SurfTracker.SetSize` | src/ofxSURFTracker.cpp:299-306 | the window becomes w×h and every other field is unchanged |
| `SurfTracker.DetectPixels` | src/ofxSURFTracker.cpp:143-243 | config, window and learned object unchanged (the object's descriptors are a copy of the learned ones; the shared buffer of the code as written is `DescriptorSharing.DetectPixelsAsWritten`); the scene is the engine's extraction of the centred window; the good matches are the filtered raw matches, empty when either descriptor set is empty; lifetime min(1, l + 0.05) on a lock (`|good| > minMatches`), max(0, l − 0.05) otherwise; on a lock with more than 5 good matches the homography is fitted from the matched object and scene points and the 4-point polygon is projected through it, otherwise the homography is kept and the transformed polygon is empty |
| `SurfTracker.NumGoodMatchesReportsLock` | src/ofxSURFTracker.cpp:70-72 | after a detection step, the count `getNumGoodMatches` reports exceeds `minMatches` exactly when the lifetime rose or sits at 1 |
| `SurfTracker.DetectImage` | src/ofxSURFTracker.cpp:131-140 | a frame narrower or shorter than the window leaves the whole tracker unchanged; otherwise a detection step runs and its crop lies inside the frame |
| `SurfTracker.Learn` | src/ofxSURFTracker.cpp:247-271 | the object signature becomes the scene's; the polygon is the keypoints' bounding box (four origins with no keypoints); the lifetime becomes 0; the window, config, scene, matches, homography and transformed polygon are unchanged |
| `SurfTracker.TransformPoints` | src/ofxSURFTracker.cpp:275-291 | the points are returned unchanged when lifetime < 1, the input is empty or there is no homography; otherwise each point i becomes the projection of its (x, y) through the homography, with z = 0, and the length is kept |
| `Tracking.DetectFrames` | src/ofxSURFTracker.cpp:143-243 | any run of detection steps keeps the invariant, the config, the window and the learned object, with the learned descriptors held as a copy |
| `Tracking.DetectFramesFollowsRun` | src/ofxSURFTracker.cpp:220-242 | the lifetime after any run of detection steps is the counter `Lifetime.Run` applied to those steps' lock decisions, so the counter lemmas apply to detection runs |
| `Tracking.LockedFramesSaturate` | src/ofxSURFTracker.cpp:220-242 | n detection steps that each end in a lock take the lifetime from l to min(1, l + n·0.05); from 0, twenty of them give 1 |
| `Tracking.UnlockedFramesKeepStaleHomography` | src/ofxSURFTracker.cpp:219-237 | n detection steps that each end without a lock give lifetime max(0, l − n·0.05), keep the last homography, and report an empty transformed polygon |
| `Tracking.DetectFramesRiseAtMostOneStepPerFrame` | src/ofxSURFTracker.cpp:220-242 | over any n detection steps the lifetime rises by at most n·0.05 |
| `Tracking.UnlearnedTrackerStaysIdle` | src/ofxSURFTracker.cpp:193-242 | with nothing learned and minMatches ≥ 0, any run keeps lifetime 0 and the homography, and reports no good matches and no transformed polygon |
| `Tracking.FreshTrackerStaysIdle` | src/ofxSURFTracker.cpp:193-242 | a new tracker fed any frames reports 0 good matches, no polygon, lifetime 0 and no homography, and leaves points unchanged |
| `Tracking.TransformWaitsAfterLearn` | src/ofxSURFTracker.cpp:270-277 | within fewer than twenty frames after learning, the point transform returns its input unchanged |
| `Tracking.LearnThenDetect` | example/src/ofApp.cpp:24-27 | learning and then detecting in one frame matches against the previous scene's signature, copied at learn time (with the shared buffer as written, a same-size frame is matched against itself instead: `DescriptorSharing.SameSizeFrameAfterLearnMatchesItself`), and leaves lifetime 0.05 on a lock and 0 otherwise |
| `Tracking.LockWithoutFit` | src/ofxSURFTracker.cpp:220-233 | a lock with at most 5 good matches (possible when minMatches < 5) still raises the lifetime by 0.05, but keeps the previous homography and reports no transformed polygon |
| `Tracking.ResizeThenDetect` | src/ofxSURFTracker.cpp:299-306 | after `setSize(w, h)`, a frame smaller than w×h is skipped; a larger one is cropped at ((W−w)/2, (H−h)/2) with size w×h, inside the frame |
| `Tracking.LearnedBoundsExample` | src/ofxSURFTracker.cpp:252-267 | ten keypoints inside x in [10, 50] and y in [5, 40] that touch all four sides are learned as exactly [(10,5), (50,5), (50,40), (10,40)] |
| `Tracking.Apply` | src/ofxSURFTracker.cpp:131-306 | each public call (learn, either detect, resize, changing a setting) keeps the tracker invariant |
| `Tracking.Replay` | src/ofxSURFTracker.cpp:238-242 | any sequence of calls keeps the invariant, so the lifetime stays in [0, 1] |
| `DescriptorSharing.LearnAsWritten` | src/ofxSURFTracker.cpp:247-250 | learning as written reaches the same state as the copying learn, and leaves the two descriptor matrices sharing one buffer exactly when the scene matrix holds data |
| `DescriptorSharing.DetectPixelsAsWritten` | src/ofxSURFTracker.cpp:186-196 | while the buffer is shared and the new scene has as many descriptor rows, the object's descriptors become the new scene's before matching and the scene is matched against itself, with the learned keypoint positions kept, and the rest of the step (lifetime, homography, transformed polygon, config, window) is the copying step run on that refilled tracker; otherwise the sharing ends and the step is the copying one; the sharing invariant (shared ⇒ object descriptors are the scene's) is kept |
| `DescriptorSharing.SameSizeFrameAfterLearnMatchesItself` | example/src/ofApp.cpp:24-27 | learning a scene of N > 0 keypoints and then detecting a frame that again yields N leaves, as written, the object with the new scene's descriptors, no good matches (given an exact self-match) and lifetime 0, while the copying learn keeps the learned descriptors |
| `DescriptorSharing.RunAsWritten` | src/ofxSURFTracker.cpp:186-196 | any run of as-written detection steps keeps the sharing invariant and the learned keypoint positions |
| `DescriptorSharing.UnsharedRunIsCopying` | src/ofxSURFTracker.cpp:186-196 | once the sharing has ended it does not resume without a new learn: the run as written is exactly the copying run `Tracking.DetectFrames`, with the object signature fixed |

## Findings

| source | as written | input that shows it | evidently intended | confidence | as-written member | corrected member |
|---|---|---|---|---|---|---|
| src/ofxSURFTracker.cpp:250 | `descriptors_object = descriptors_scene` assigns a `cv::Mat` header, so both names share one buffer; the extraction at line 190 refills that buffer in place whenever the new scene has as many descriptor rows | learn after a frame with N > 0 keypoints (the demo application learns right before detecting), then detect a frame whose window also yields N keypoints: the object's descriptors are now the scene's, the scene is matched against itself, every best distance is 0 and the filter keeps nothing | a deep copy (`descriptors_scene.clone()`), so the learned descriptors stay fixed until the next learn, as the learned keypoints do | not executed; follows from OpenCV 2.4's `Mat` assignment and `Mat::create` semantics | `DescriptorSharing.SameSizeFrameAfterLearnMatchesItself` | `Tracking.LearnThenDetect` |

## Left out

- Drawing (`draw`, `drawFeatures`, `drawResponses`, `drawMatches`, `drawHomoGraphy`) and the drawing flags: rendering only.
- Image buffers: reallocating the input image when the frame size changes, the "re-allocated" console message, pixel copying into the region of interest, grayscale conversion and `contrastStretch`. This is pixel plumbing; the `contrast` flag is passed to the engine as a setting.
- The SURF detector, descriptor extractor, FLANN matcher, `findHomography` with RANSAC and the per-point projection: these are foreign OpenCV calls, modelled as the uninterpreted functions of `Engine`. `fit` always returns a matrix, as OpenCV 2.4 does (it returns a zero matrix when RANSAC fails). A library version that returns an empty matrix instead is not modelled. The homography is therefore absent only before the first fit.
- Floating-point rounding: the lifetime, distances and coordinates are exact reals. With `float`, twenty additions of 0.05 may land slightly above or below 1, which changes the frame on which `objectLifeTime >= 1` first holds.
- `max_dist` is computed in the distance scan but never read, so it is not modelled.
- Writes by callers straight into the public `objectLifeTime` field are not modelled. Such a write could put the lifetime outside [0, 1] until the next detection clamps it. The other public fields are modelled as the `Configure` call.
- `SurfTracker.DetectPixels`, `SurfTracker.DetectImage` and the run lemmas ask for `Tracker.Valid()` and `Engine.Valid()`. The first holds of every reachable state (`Tracking.Replay`). The second is OpenCV's guarantee that keypoints and descriptors are aligned and that match indices are in range. Without it, the source's `keypoints_object[queryIdx]` would read out of bounds.
- `SurfTracker.DetectPixels` keeps the learned descriptors as a copy, the intended behaviour. In the code as written, a scene with the same number of descriptor rows overwrites them through the shared buffer (see "## Findings"; modelled by `DescriptorSharing.DetectPixelsAsWritten`).
- `SurfTracker.Learn` copies the scene descriptors into the object. The code as written shares the buffer; `DescriptorSharing.LearnAsWritten` models that.
- `Tracking.DetectFrames` keeps the learned signature fixed over a run. With the shared buffer as written, same-size frames replace the learned descriptors; `DescriptorSharing.RunAsWritten` models such runs. Call sequences as written are not modelled in `Tracking.Replay`.
- `Tracking.LearnThenDetect` matches the new scene against the copied learned descriptors. As written, a same-size frame is matched against itself instead (`DescriptorSharing.SameSizeFrameAfterLearnMatchesItself`).
- What ofxOpenCv's `setROI` and `getRoiPixels` do with a region that reaches outside a frame smaller than the window: they clamp the region and then over-read. Only the corner arithmetic is modelled.
- The destructor and the example application's camera, keyboard and fps display.

=== FILE: features.dfy ===
/** The data the tracker exchanges with the external feature-recognition
    engine (SURF detection and description, FLANN matching, RANSAC homography
    fitting, perspective transform), with the engine itself as a record of
    uninterpreted total functions. */
module Features {
  import opened Geometry

  datatype Option<T> = None | Some(value: T)

  /** A detected feature (`cv::KeyPoint`): location, orientation and strength. */
  datatype KeyPoint = KeyPoint(pt: Point, angle: real, response: real)

  /** One descriptor row per keypoint (`cv::Mat` of feature vectors); the
      matrix is empty exactly when it has no rows. */
  type Descriptors = seq<seq<real>>

  /** A feature signature: keypoints and their index-aligned descriptors. */
  datatype Signature = Signature(keypoints: seq<KeyPoint>, descriptors: Descriptors)
  {
    predicate Aligned()
    {
      |keypoints| == |descriptors|
    }
  }

  const EmptySignature := Signature([], [])

  /** A raw correspondence (`cv::DMatch`): a row of the object descriptors
      (`queryIdx`), a row of the scene descriptors (`trainIdx`) and their
      distance, lower being better. */
  datatype Match = Match(queryIdx: int, trainIdx: int, distance: real)

  /** A 3×3 perspective transform in row-major order, as the fitting produces
      it; the tracker never looks inside. */
  datatype Homography = Homography(entries: seq<real>)

  /** An input frame: its size and its pixel bytes. */
  datatype Frame = Frame(width: int, height: int, pixels: seq<bv8>)

  /** The SURF detector settings and the contrast-stretch switch, handed to
      the engine with each frame. */
  datatype DetectorParams = DetectorParams(
    hessianThreshold: real,
    octaves: real,
    octaveLayers: real,
    upright: bool,
    contrast: bool)

  /** The engine: `extract` detects and describes the features inside a
      region of a frame, `matcher` pairs every object descriptor with its
      nearest scene descriptor, `fit` estimates the homography from
      corresponding point lists, `project` maps one point through a
      homography. */
  datatype Engine = Engine(
    extract: (Frame, Rect, DetectorParams) -> Signature,
    matcher: (Descriptors, Descriptors) -> seq<Match>,
    fit: (seq<Point>, seq<Point>) -> Homography,
    project: (Homography, Point) -> Point)
  {
    /** What the tracker relies on: extracted keypoints and descriptors are
        index-aligned, and matches index rows of the two descriptor sets. */
    ghost predicate Valid()
    {
      && (forall f, r, p :: extract(f, r, p).Aligned())
      && (forall a, b :: IndexesInto(matcher(a, b), |a|, |b|))
    }
  }

  /** Every match refers to a query row below `queryRows` and a train row
      below `trainRows`. */
  ghost predicate IndexesInto(ms: seq<Match>, queryRows: int, trainRows: int)
  {
    forall m :: m in ms ==> 0 <= m.queryIdx < queryRows && 0 <= m.trainIdx < trainRows
  }

  /** The locations of a keypoint sequence, in order. */
  function Positions(kps: seq<KeyPoint>): (pts: seq<Point>)
    ensures |pts| == |kps|
    ensures forall i :: 0 <= i < |kps| ==> pts[i] == kps[i].pt
  {
    seq(|kps|, i requires 0 <= i < |kps| => kps[i].pt)
  }

  /** `perspectiveTransform`: every point mapped through `h`, in order. */
  function Project(engine: Engine, h: Homography, pts: seq<Point>): (out: seq<Point>)
    ensures |out| == |pts|
    ensures forall i :: 0 <= i < |pts| ==> out[i] == engine.project(h, pts[i])
  {
    seq(|pts|, i requires 0 <= i < |pts| => engine.project(h, pts[i]))
  }
}

=== FILE: geometry.dfy ===
/** Points, the centred detection window and the axis-aligned bounding polygon
    of a learned object. */
module Geometry {
  import opened Numeric

  /** A 2-D point (OpenCV's `Point2f`); single-precision coordinates are
      modelled as exact reals. */
  datatype Point = Point(x: real, y: real)

  /** openFrameworks' 3-D point (`ofPoint`), used by the public point API. */
  datatype OfPoint = OfPoint(x: real, y: real, z: real)

  /** An integer rectangle: top-left corner and size (the crop region of interest). */
  datatype Rect = Rect(x: int, y: int, width: int, height: int)

  predicate InsideFrame(r: Rect, frameWidth: int, frameHeight: int)
  {
    && 0 <= r.x && r.x + r.width <= frameWidth
    && 0 <= r.y && r.y + r.height <= frameHeight
  }

  /** The `w`×`h` detection window centred in a frame of `frameWidth`×`frameHeight`
      pixels, with the corner computed by C++ integer division. */
  function CropRegion(frameWidth: int, frameHeight: int, w: int, h: int): (r: Rect)
    ensures r.width == w && r.height == h
    ensures frameWidth >= w ==> r.x == (frameWidth - w) / 2
    ensures frameHeight >= h ==> r.y == (frameHeight - h) / 2
    ensures frameWidth >= w && frameHeight >= h ==> InsideFrame(r, frameWidth, frameHeight)
    // centred: the right (bottom) margin equals the left (top) one or exceeds it by one pixel
    ensures frameWidth >= w ==> frameWidth - (r.x + w) - r.x in {0, 1}
    ensures frameHeight >= h ==> frameHeight - (r.y + h) - r.y in {0, 1}
  {
    Rect(HalfTowardZero(frameWidth - w), HalfTowardZero(frameHeight - h), w, h)
  }

  datatype Axis = X | Y

  function Coord(p: Point, a: Axis): real
  {
    match a
    case X => p.x
    case Y => p.y
  }

  /** `v` is the least coordinate along `a` among `pts`, and is attained. */
  ghost predicate IsLeast(v: real, pts: seq<Point>, a: Axis)
  {
    && (forall i :: 0 <= i < |pts| ==> v <= Coord(pts[i], a))
    && (exists i :: 0 <= i < |pts| && Coord(pts[i], a) == v)
  }

  /** `v` is the greatest coordinate along `a` among `pts`, and is attained. */
  ghost predicate IsGreatest(v: real, pts: seq<Point>, a: Axis)
  {
    && (forall i :: 0 <= i < |pts| ==> Coord(pts[i], a) <= v)
    && (exists i :: 0 <= i < |pts| && Coord(pts[i], a) == v)
  }

  /** An axis-aligned box by its two extreme corners (an `ofRectangle` with
      non-negative size). */
  datatype Box = Box(minX: real, minY: real, maxX: real, maxY: real)

  /** `b` is the tightest box around `pts`. */
  ghost predicate Spans(b: Box, pts: seq<Point>)
  {
    && IsLeast(b.minX, pts, X) && IsLeast(b.minY, pts, Y)
    && IsGreatest(b.maxX, pts, X) && IsGreatest(b.maxY, pts, Y)
  }

  /** `ofRectangle::growToInclude`: the smallest box covering `b` and `p`. */
  function Grow(b: Box, p: Point): Box
  {
    Box(Min(b.minX, p.x), Min(b.minY, p.y), Max(b.maxX, p.x), Max(b.maxY, p.y))
  }

  /** The bounding box of a non-empty point sequence, built the way the learner
      builds it: a zero-size box at the first point, then grown by every point
      in turn. */
  function Bounds(pts: seq<Point>): (b: Box)
    requires |pts| > 0
    ensures Spans(b, pts)
    decreases |pts|
  {
    var last := pts[|pts| - 1];
    if |pts| == 1 then
      Grow(Box(last.x, last.y, last.x, last.y), last)
    else
      var prefix := pts[..|pts| - 1];
      var b := Bounds(prefix);
      assert forall i :: 0 <= i < |prefix| ==> prefix[i] == pts[i];
      Grow(b, last)
  }

  /** The four corners of a box, clockwise in image coordinates from the top left. */
  function Corners(b: Box): seq<Point>
  {
    [Point(b.minX, b.minY), Point(b.maxX, b.minY), Point(b.maxX, b.maxY), Point(b.minX, b.maxY)]
  }

  /** The reference polygon of a learned object: the corners of the bounding box
      of `pts`, or four copies of the origin when there are no points (the
      default `ofRectangle` is at the origin with zero size). */
  function BoundingPolygon(pts: seq<Point>): (poly: seq<Point>)
    ensures |poly| == 4
    ensures |pts| == 0 ==> forall i :: 0 <= i < 4 ==> poly[i] == Point(0.0, 0.0)
    ensures |pts| > 0 ==> Spans(Box(poly[0].x, poly[0].y, poly[2].x, poly[2].y), pts)
    ensures poly[1] == Point(poly[2].x, poly[0].y) && poly[3] == Point(poly[0].x, poly[2].y)
  {
    Corners(if |pts| == 0 then Box(0.0, 0.0, 0.0, 0.0) else Bounds(pts))
  }

  /** The least coordinate of a point set is unique. */
  lemma LeastIsUnique(u: real, v: real, pts: seq<Point>, a: Axis)
    requires IsLeast(u, pts, a) && IsLeast(v, pts, a)
    ensures u == v
  {
  }

  /** The greatest coordinate of a point set is unique. */
  lemma GreatestIsUnique(u: real, v: real, pts: seq<Point>, a: Axis)
    requires IsGreatest(u, pts, a) && IsGreatest(v, pts, a)
    ensures u == v
  {
  }

  /** Whatever box tightly spans the points, the reference polygon is exactly
      its corners: (minx,miny), (maxx,miny), (maxx,maxy), (minx,maxy). */
  lemma BoundingPolygonIsExtremes(pts: seq<Point>, b: Box)
    requires |pts| > 0 && Spans(b, pts)
    ensures BoundingPolygon(pts) == Corners(b)
  {
    var poly := BoundingPolygon(pts);
    LeastIsUnique(poly[0].x, b.minX, pts, X);
    LeastIsUnique(poly[0].y, b.minY, pts, Y);
    GreatestIsUnique(poly[2].x, b.maxX, pts, X);
    GreatestIsUnique(poly[2].y, b.maxY, pts, Y);
  }
}

=== FILE: lifetime.dfy ===
/** The object lifetime: a confidence score in [0, 1] that rises by one step
    on every frame with a decent match and falls by one step otherwise. */
module Lifetime {
  import opened Numeric

  /** The per-frame change of the lifetime. */
  const LifeStep: real := 0.05

  predicate InUnitRange(l: real)
  {
    0.0 <= l <= 1.0
  }

  /** Distance between two reals. */
  function Dist(a: real, b: real): real
  {
    if a <= b then b - a else a - b
  }

  /** Clamping to [0, 1]: the point of the unit interval closest to `l`. */
  function Clamp(l: real): (c: real)
    ensures InUnitRange(c)
    ensures InUnitRange(l) ==> c == l
    ensures forall v :: InUnitRange(v) ==> Dist(c, l) <= Dist(v, l)
  {
    if l > 1.0 then 1.0 else if l < 0.0 then 0.0 else l
  }

  /** One frame's update: a step up when `locked`, a step down otherwise,
      then clamped. Inside the unit interval this saturates at the bound
      instead of crossing it. */
  function NextLifeTime(l: real, locked: bool): (n: real)
    ensures InUnitRange(n)
    ensures InUnitRange(l) && locked ==> n == Min(1.0, l + LifeStep)
    ensures InUnitRange(l) && !locked ==> n == Max(0.0, l - LifeStep)
  {
    Clamp(if locked then l + LifeStep else l - LifeStep)
  }

  /** The lifetime after a run of frames, `locks[i]` telling whether frame
      `i` had a decent match: the counter-level view of a run of detection
      steps, which `Tracking.DetectFramesFollowsRun` ties to it. */
  function Run(l: real, locks: seq<bool>): real
    decreases |locks|
  {
    if |locks| == 0 then l else Run(NextLifeTime(l, locks[0]), locks[1..])
  }

  predicate AllLocked(locks: seq<bool>)
  {
    forall i :: 0 <= i < |locks| ==> locks[i]
  }

  predicate NoneLocked(locks: seq<bool>)
  {
    forall i :: 0 <= i < |locks| ==> !locks[i]
  }

  /** The lifetime stays in [0, 1] over any run of frames. */
  lemma {:induction false} RunStaysInRange(l: real, locks: seq<bool>)
    requires InUnitRange(l)
    ensures InUnitRange(Run(l, locks))
    decreases |locks|
  {
    if |locks| > 0 {
      RunStaysInRange(NextLifeTime(l, locks[0]), locks[1..]);
    }
  }

  /** Consecutive locked frames raise the lifetime linearly until it saturates at 1. */
  lemma {:induction false} LockedRunRises(l: real, locks: seq<bool>)
    requires InUnitRange(l) && AllLocked(locks)
    ensures Run(l, locks) == Min(1.0, l + |locks| as real * LifeStep)
    decreases |locks|
  {
    if |locks| > 0 {
      LockedRunRises(NextLifeTime(l, true), locks[1..]);
    }
  }

  /** Consecutive unlocked frames lower the lifetime linearly until it reaches 0. */
  lemma {:induction false} UnlockedRunDecays(l: real, locks: seq<bool>)
    requires InUnitRange(l) && NoneLocked(locks)
    ensures Run(l, locks) == Max(0.0, l - |locks| as real * LifeStep)
    decreases |locks|
  {
    if |locks| > 0 {
      UnlockedRunDecays(NextLifeTime(l, false), locks[1..]);
    }
  }

  /** From a fresh object, `n` locked frames give min(1, n·step): twenty of
      them reach full trust, and it stays there. */
  lemma LockedFromZero(locks: seq<bool>)
    requires AllLocked(locks)
    ensures Run(0.0, locks) == Min(1.0, |locks| as real * LifeStep)
    ensures |locks| >= 20 ==> Run(0.0, locks) == 1.0
  {
    LockedRunRises(0.0, locks);
  }

  /** The lifetime rises by at most one step per frame. */
  lemma {:induction false} RunRisesAtMostOneStepPerFrame(l: real, locks: seq<bool>)
    requires InUnitRange(l)
    ensures Run(l, locks) <= l + |locks| as real * LifeStep
    decreases |locks|
  {
    if |locks| > 0 {
      RunRisesAtMostOneStepPerFrame(NextLifeTime(l, locks[0]), locks[1..]);
    }
  }

  /** Full trust (lifetime 1) after a reset to 0 takes at least twenty frames. */
  lemma TrustNeedsTwentyFrames(locks: seq<bool>)
    requires Run(0.0, locks) >= 1.0
    ensures |locks| >= 20
  {
    RunRisesAtMostOneStepPerFrame(0.0, locks);
  }
}

=== FILE: matching.dfy ===
/** The correspondence filter: raw matches between the object and scene
    descriptors, the best observed distance, and the dual quality test. */
module Matching {
  import opened Features

  /** The starting value of the minimum-distance scan. */
  const MinDistanceSeed: real := 100.0

  /** The matcher is consulted only when both descriptor sets are non-empty;
      otherwise there are no raw matches. */
  function RawMatches(engine: Engine, objectDescriptors: Descriptors, sceneDescriptors: Descriptors): (ms: seq<Match>)
    ensures |objectDescriptors| == 0 || |sceneDescriptors| == 0 ==> ms == []
    ensures |objectDescriptors| > 0 && |sceneDescriptors| > 0 ==> ms == engine.matcher(objectDescriptors, sceneDescriptors)
    ensures engine.Valid() ==> IndexesInto(ms, |objectDescriptors|, |sceneDescriptors|)
  {
    if |objectDescriptors| > 0 && |sceneDescriptors| > 0 then
      engine.matcher(objectDescriptors, sceneDescriptors)
    else
      []
  }

  /** The minimum-distance scan, left to right from the seed: the result is
      the least of the seed and every raw distance. */
  function MinDistance(ms: seq<Match>): (d: real)
    ensures d <= MinDistanceSeed
    ensures forall i :: 0 <= i < |ms| ==> d <= ms[i].distance
    ensures d == MinDistanceSeed || exists i :: 0 <= i < |ms| && ms[i].distance == d
    decreases |ms|
  {
    if |ms| == 0 then
      MinDistanceSeed
    else
      var prefix := ms[..|ms| - 1];
      var d := MinDistance(prefix);
      var dist := ms[|ms| - 1].distance;
      assert forall i :: 0 <= i < |prefix| ==> prefix[i] == ms[i];
      if dist < d then dist else d
  }

  /** The dual quality test: relative to the best match and below the
      absolute cutoff. */
  predicate Keep(m: Match, minDist: real, threshold: real)
  {
    m.distance < 3.0 * minDist && m.distance < threshold
  }

  /** The matches passing the quality test, in their original order. */
  function GoodMatches(ms: seq<Match>, minDist: real, threshold: real): (good: seq<Match>)
    ensures |good| <= |ms|
    ensures forall m :: m in good ==> m in ms && Keep(m, minDist, threshold)
    ensures forall i :: 0 <= i < |ms| && Keep(ms[i], minDist, threshold) ==> ms[i] in good
    decreases |ms|
  {
    if |ms| == 0 then
      []
    else
      var prefix := ms[..|ms| - 1];
      var last := ms[|ms| - 1];
      assert forall i :: 0 <= i < |prefix| ==> prefix[i] == ms[i];
      GoodMatches(prefix, minDist, threshold) + (if Keep(last, minDist, threshold) then [last] else [])
  }

  /** `idx` lists, in strictly increasing order, exactly the positions of `ms`
      whose match passes the test, and `good` holds those matches in that order. */
  ghost predicate SelectsInOrder(good: seq<Match>, ms: seq<Match>, idx: seq<int>, minDist: real, threshold: real)
  {
    && |idx| == |good|
    && (forall k :: 0 <= k < |idx| ==> 0 <= idx[k] < |ms| && good[k] == ms[idx[k]])
    && (forall k, l :: 0 <= k < l < |idx| ==> idx[k] < idx[l])
    && (forall i :: 0 <= i < |ms| ==> (Keep(ms[i], minDist, threshold) <==> i in idx))
  }

  /** Extending the raw matches by one keeps the selection property, with the
      new position appended to the indices when its match passes. */
  lemma SelectsExtend(ms: seq<Match>, good': seq<Match>, idx': seq<int>, minDist: real, threshold: real)
    requires |ms| > 0 && SelectsInOrder(good', ms[..|ms| - 1], idx', minDist, threshold)
    ensures var n := |ms| - 1;
      var keep := Keep(ms[n], minDist, threshold);
      SelectsInOrder(good' + (if keep then [ms[n]] else []), ms,
                     idx' + (if keep then [n] else []), minDist, threshold)
  {
  }

  /** The positions of the raw matches that pass the test, in increasing order. */
  ghost function KeptPositions(ms: seq<Match>, minDist: real, threshold: real): seq<int>
    decreases |ms|
  {
    if |ms| == 0 then []
    else
      var n := |ms| - 1;
      KeptPositions(ms[..n], minDist, threshold) + (if Keep(ms[n], minDist, threshold) then [n] else [])
  }

  /** The filter output is the in-order subsequence of the raw matches made of
      exactly those that pass the test. */
  lemma {:induction false} GoodMatchesSelectsInOrder(ms: seq<Match>, minDist: real, threshold: real)
    ensures SelectsInOrder(GoodMatches(ms, minDist, threshold), ms, KeptPositions(ms, minDist, threshold), minDist, threshold)
    decreases |ms|
  {
    if |ms| == 0 {
      assert GoodMatches(ms, minDist, threshold) == [];
    } else {
      var n := |ms| - 1;
      var prefix := ms[..n];
      GoodMatchesSelectsInOrder(prefix, minDist, threshold);
      SelectsExtend(ms, GoodMatches(prefix, minDist, threshold), KeptPositions(prefix, minDist, threshold),
                    minDist, threshold);
    }
  }

  /** When no raw match passes the test, the filter output is empty. */
  lemma {:induction false} NoneKeptMeansEmpty(ms: seq<Match>, minDist: real, threshold: real)
    requires forall i :: 0 <= i < |ms| ==> !Keep(ms[i], minDist, threshold)
    ensures GoodMatches(ms, minDist, threshold) == []
    decreases |ms|
  {
    if |ms| > 0 {
      var prefix := ms[..|ms| - 1];
      assert forall i :: 0 <= i < |prefix| ==> prefix[i] == ms[i];
      NoneKeptMeansEmpty(prefix, minDist, threshold);
    }
  }

  /** A perfect correspondence empties the filter: once the best distance is
      zero, no distance is below three times it. */
  lemma PerfectMatchRejectsAll(ms: seq<Match>, threshold: real)
    requires exists i :: 0 <= i < |ms| && ms[i].distance <= 0.0
    ensures GoodMatches(ms, MinDistance(ms), threshold) == []
  {
    NoneKeptMeansEmpty(ms, MinDistance(ms), threshold);
  }
}

=== FILE: numeric.dfy ===
/** Small arithmetic helpers shared by the geometry and lifetime models. */
module Numeric {

  /** The smaller of two reals (C++ `MIN`). */
  function Min(a: real, b: real): (m: real)
    ensures m <= a && m <= b
    ensures m == a || m == b
  {
    if a <= b then a else b
  }

  /** The larger of two reals (C++ `MAX`). */
  function Max(a: real, b: real): (m: real)
    ensures a <= m && b <= m
    ensures m == a || m == b
  {
    if a <= b then b else a
  }

  /** C++ `n / 2` on `int`, which truncates toward zero; Dafny's `/` rounds
      toward negative infinity for a positive divisor, so the two differ on
      odd negative `n`. */
  function HalfTowardZero(n: int): (h: int)
    ensures 0 <= n ==> 0 <= h && 2 * h <= n <= 2 * h + 1
    ensures n < 0 ==> h <= 0 && 2 * h - 1 <= n <= 2 * h
  {
    if n >= 0 then n / 2 else -((-n) / 2)
  }
}

=== FILE: sharing.dfy ===
/** `learnFeatures` as written: assigning the scene descriptor matrix to the
    object one shares a single buffer between them rather than copying it.
    The next extraction refills the scene matrix in place whenever it has as
    many rows as before (the column count is fixed by the extractor), so the
    learned descriptors silently become the new scene's while the learned
    keypoint positions stay as they were. A different row count, or no
    keypoints at all, gives the scene a buffer of its own and ends the
    sharing. The rest of the model uses the intended copying behaviour; this
    module keeps the behaviour as written next to it. */
module DescriptorSharing {
  import opened Geometry
  import opened Features
  import opened Matching
  import opened Lifetime
  import opened SurfTracker
  import opened Tracking

  /** A tracker together with whether its object descriptor matrix still
      shares the scene matrix's buffer. */
  datatype SharingTracker = SharingTracker(tracker: Tracker, shared: bool)
  {
    /** While the buffer is shared, the object's descriptors are the scene's,
        and there is data to share. */
    predicate Valid()
    {
      && tracker.Valid()
      && (shared ==> tracker.objectSig.descriptors == tracker.sceneSig.descriptors
                     && |tracker.sceneSig.descriptors| > 0)
    }
  }

  /** The signature the engine extracts from the tracker's centred window. */
  function WindowScene(t: Tracker, frame: Frame, engine: Engine): Signature
  {
    engine.extract(frame, CropRegion(frame.width, frame.height, t.width, t.height), t.config.detector)
  }

  /** The extraction refills the shared buffer in place: it is still shared
      and the new matrix has as many rows as the old one. */
  predicate RefillsInPlace(s: SharingTracker, scene: Signature)
  {
    s.shared && |scene.descriptors| == |s.tracker.objectSig.descriptors|
  }

  /** The tracker as the matching step sees it once the shared buffer has
      been refilled: its object descriptors are the new scene's. */
  function Refilled(t: Tracker, scene: Signature): Tracker
  {
    t.(objectSig := t.objectSig.(descriptors := scene.descriptors))
  }

  /** Learning as written: the same state as the copying `Learn`, with the
      buffer shared whenever the scene matrix holds any data. */
  function LearnAsWritten(s: SharingTracker): (r: SharingTracker)
    ensures r.tracker == Learn(s.tracker)
    ensures r.shared <==> |s.tracker.sceneSig.descriptors| > 0
    ensures s.tracker.Valid() ==> r.Valid()
  {
    SharingTracker(Learn(s.tracker), |s.tracker.sceneSig.descriptors| > 0)
  }

  /** One detection step as written. When the new scene refills the shared
      buffer, the object's descriptors are the new scene's before matching,
      so the scene is matched against itself; the learned keypoint positions
      are kept either way. Otherwise the sharing ends and the step is the
      copying one. */
  function DetectPixelsAsWritten(s: SharingTracker, frame: Frame, engine: Engine): (r: SharingTracker)
    requires s.Valid() && engine.Valid()
    ensures r.Valid()
    ensures var scene := WindowScene(s.tracker, frame, engine);
      && r.shared == RefillsInPlace(s, scene)
      && r.tracker.sceneSig == scene
      && r.tracker.objectSig.keypoints == s.tracker.objectSig.keypoints
      && r.tracker.objectPolygon == s.tracker.objectPolygon
      && (RefillsInPlace(s, scene) ==>
            && r.tracker == DetectPixels(Refilled(s.tracker, scene), frame, engine)
            && r.tracker.objectSig.descriptors == scene.descriptors
            && var raw := RawMatches(engine, scene.descriptors, scene.descriptors);
               r.tracker.goodMatches == GoodMatches(raw, MinDistance(raw), s.tracker.config.distanceThreshold))
      && (!RefillsInPlace(s, scene) ==> r.tracker == DetectPixels(s.tracker, frame, engine))
  {
    var scene := WindowScene(s.tracker, frame, engine);
    var refill := RefillsInPlace(s, scene);
    var t := if refill then Refilled(s.tracker, scene) else s.tracker;
    SharingTracker(DetectPixels(t, frame, engine), refill)
  }

  /** Matching a descriptor set against itself finds some exact match, as a
      nearest-neighbour search does when every query is also in the set. */
  predicate SelfMatchIsExact(engine: Engine, d: Descriptors)
  {
    exists i :: 0 <= i < |engine.matcher(d, d)| && engine.matcher(d, d)[i].distance <= 0.0
  }

  /** The demo application's call order exposes the sharing: learn a scene of
      N > 0 keypoints, then detect a frame that again yields N. As written,
      the object's descriptors are the new scene's, the scene is matched
      against itself, the filter keeps nothing and the lifetime stays 0.
      With the intended copy the object keeps the learned descriptors. */
  lemma SameSizeFrameAfterLearnMatchesItself(t: Tracker, frame: Frame, engine: Engine)
    requires t.Valid() && engine.Valid() && t.config.minMatches >= 0.0
    requires var scene := WindowScene(t, frame, engine);
      && |t.sceneSig.descriptors| > 0
      && |scene.descriptors| == |t.sceneSig.descriptors|
      && SelfMatchIsExact(engine, scene.descriptors)
    ensures var scene := WindowScene(t, frame, engine);
      var asWritten := DetectPixelsAsWritten(LearnAsWritten(SharingTracker(t, false)), frame, engine);
      var intended := DetectPixels(Learn(t), frame, engine);
      && asWritten.shared
      && asWritten.tracker.objectSig.descriptors == scene.descriptors
      && asWritten.tracker.goodMatches == []
      && asWritten.tracker.lifeTime == 0.0
      && intended.objectSig.descriptors == t.sceneSig.descriptors
  {
    var scene := WindowScene(t, frame, engine);
    var learned := LearnAsWritten(SharingTracker(t, false));
    assert RefillsInPlace(learned, scene);
    var raw := RawMatches(engine, scene.descriptors, scene.descriptors);
    assert raw == engine.matcher(scene.descriptors, scene.descriptors);
    PerfectMatchRejectsAll(raw, t.config.distanceThreshold);
  }

  /** Once the sharing has ended it never resumes without a new `learnFeatures`:
      every later step is the copying one, so the run as written is the
      copying run. */
  lemma {:induction false} UnsharedRunIsCopying(s: SharingTracker, frames: seq<Frame>, engine: Engine)
    requires s.Valid() && engine.Valid() && !s.shared
    ensures RunAsWritten(s, frames, engine) == SharingTracker(DetectFrames(s.tracker, frames, engine), false)
    ensures RunAsWritten(s, frames, engine).tracker.objectSig == s.tracker.objectSig
    decreases |frames|
  {
    if |frames| > 0 {
      UnsharedRunIsCopying(DetectPixelsAsWritten(s, frames[0], engine), frames[1..], engine);
    }
  }

  /** Detection steps as written on a sequence of frames, in order. */
  function RunAsWritten(s: SharingTracker, frames: seq<Frame>, engine: Engine): (r: SharingTracker)
    requires s.Valid() && engine.Valid()
    ensures r.Valid()
    ensures r.tracker.objectSig.keypoints == s.tracker.objectSig.keypoints
    decreases |frames|
  {
    if |frames| == 0 then s
    else RunAsWritten(DetectPixelsAsWritten(s, frames[0], engine), frames[1..], engine)
  }
}

=== FILE: tracker.dfy ===
/** The tracker: its state, the per-frame detection step, learning, window
    resizing and the public point transform. */
module SurfTracker {
  import opened Numeric
  import opened Geometry
  import opened Features
  import opened Matching
  import opened Lifetime

  /** The public tuning fields. */
  datatype Config = Config(detector: DetectorParams, distanceThreshold: real, minMatches: real)

  const DefaultWidth: int := 320
  const DefaultHeight: int := 240
  const DefaultConfig: Config := Config(DetectorParams(500.0, 3.0, 4.0, false, false), 0.2, 5.0)

  /** A homography is fitted only from more than this many point pairs. */
  const MinPairs: int := 5

  /** The tracker's state. `objectSig` is the learned signature, `objectPolygon`
      its reference polygon; `sceneSig` and `goodMatches` are the current
      frame's; `homography` is the last fitted transform (None before the
      first fit) and `objectTransformed` the polygon mapped through it this
      frame; `lifeTime` is the confidence score. */
  datatype Tracker = Tracker(
    config: Config,
    width: int,
    height: int,
    objectSig: Signature,
    sceneSig: Signature,
    goodMatches: seq<Match>,
    homography: Option<Homography>,
    objectPolygon: seq<Point>,
    objectTransformed: seq<Point>,
    lifeTime: real)
  {
    /** Holds of every state the operations below can reach. */
    predicate Valid()
    {
      && objectSig.Aligned()
      && sceneSig.Aligned()
      && (|objectPolygon| == 4 || (objectPolygon == [] && objectSig == EmptySignature))
      && InUnitRange(lifeTime)
      && (objectTransformed == [] || |objectTransformed| == |objectPolygon|)
    }
  }

  /** A fresh tracker: a 320×240 window, the default thresholds, nothing
      learned or matched, no homography and a lifetime of 0. */
  function Init(): (t: Tracker)
    ensures t.Valid()
    ensures t.width == DefaultWidth && t.height == DefaultHeight && t.config == DefaultConfig
    ensures t.objectSig == EmptySignature && t.goodMatches == [] && t.homography == None
    ensures t.sceneSig == EmptySignature && t.objectPolygon == [] && t.objectTransformed == []
    ensures t.lifeTime == 0.0
  {
    Tracker(DefaultConfig, DefaultWidth, DefaultHeight, EmptySignature, EmptySignature,
            [], None, [], [], 0.0)
  }

  /** The number of good matches, the quality measure callers read. */
  function NumGoodMatches(t: Tracker): int
  {
    |t.goodMatches|
  }

  /** The lock decision: strictly more good matches than `minMatches`. */
  predicate Locked(goodCount: int, minMatches: real)
  {
    goodCount as real > minMatches
  }

  /** The object-side keypoint location of every good match, in order. */
  function MatchedObjectPoints(good: seq<Match>, kps: seq<KeyPoint>): (pts: seq<Point>)
    requires forall m :: m in good ==> 0 <= m.queryIdx < |kps|
    ensures |pts| == |good|
    ensures forall i :: 0 <= i < |good| ==> pts[i] == kps[good[i].queryIdx].pt
  {
    seq(|good|, i requires 0 <= i < |good| => kps[good[i].queryIdx].pt)
  }

  /** The scene-side keypoint location of every good match, in order. */
  function MatchedScenePoints(good: seq<Match>, kps: seq<KeyPoint>): (pts: seq<Point>)
    requires forall m :: m in good ==> 0 <= m.trainIdx < |kps|
    ensures |pts| == |good|
    ensures forall i :: 0 <= i < |good| ==> pts[i] == kps[good[i].trainIdx].pt
  {
    seq(|good|, i requires 0 <= i < |good| => kps[good[i].trainIdx].pt)
  }

  /** Sets the detection window size; later frames are cropped to it. */
  function SetSize(t: Tracker, w: int, h: int): (r: Tracker)
    ensures r.width == w && r.height == h
    ensures r.config == t.config && r.objectSig == t.objectSig && r.sceneSig == t.sceneSig
    ensures r.goodMatches == t.goodMatches && r.homography == t.homography
    ensures r.objectPolygon == t.objectPolygon && r.objectTransformed == t.objectTransformed
    ensures r.lifeTime == t.lifeTime
    ensures t.Valid() ==> r.Valid()
  {
    t.(width := w, height := h)
  }

  /** One detection step, `detect(pix, W, H)`, on a frame of any size (the
      public entry point has no size guard): crop the centred window, extract
      the scene signature, match it against the learned one, filter the
      matches, fit and apply a homography on a lock, and update the lifetime. */
  function DetectPixels(t: Tracker, frame: Frame, engine: Engine): (r: Tracker)
    requires t.Valid() && engine.Valid()
    ensures r.Valid()
    // configuration, window and learned object are untouched
    ensures r.config == t.config && r.width == t.width && r.height == t.height
    ensures r.objectSig == t.objectSig && r.objectPolygon == t.objectPolygon
    // the scene is replaced wholesale by what the engine finds in the centred window
    ensures r.sceneSig == engine.extract(frame, CropRegion(frame.width, frame.height, t.width, t.height), t.config.detector)
    // the good matches are the filtered raw matches against the learned signature
    ensures var raw := RawMatches(engine, t.objectSig.descriptors, r.sceneSig.descriptors);
      r.goodMatches == GoodMatches(raw, MinDistance(raw), t.config.distanceThreshold)
    ensures t.objectSig.descriptors == [] || r.sceneSig.descriptors == [] ==> r.goodMatches == []
    // lifetime
    ensures r.lifeTime == NextLifeTime(t.lifeTime, Locked(|r.goodMatches|, t.config.minMatches))
    ensures Locked(|r.goodMatches|, t.config.minMatches) ==> r.lifeTime == Min(1.0, t.lifeTime + LifeStep)
    ensures !Locked(|r.goodMatches|, t.config.minMatches) ==> r.lifeTime == Max(0.0, t.lifeTime - LifeStep)
    // pose: a new homography and a transformed polygon only on a lock with enough pairs
    ensures Locked(|r.goodMatches|, t.config.minMatches) && |r.goodMatches| > MinPairs ==>
      && |t.objectPolygon| == 4
      && r.homography == Some(engine.fit(MatchedObjectPoints(r.goodMatches, t.objectSig.keypoints),
                                         MatchedScenePoints(r.goodMatches, r.sceneSig.keypoints)))
      && |r.objectTransformed| == 4
      && (forall i :: 0 <= i < 4 ==> r.objectTransformed[i] == engine.project(r.homography.value, t.objectPolygon[i]))
    ensures !(Locked(|r.goodMatches|, t.config.minMatches) && |r.goodMatches| > MinPairs) ==>
      r.homography == t.homography && r.objectTransformed == []
  {
    var scene := engine.extract(frame, CropRegion(frame.width, frame.height, t.width, t.height), t.config.detector);
    var raw := RawMatches(engine, t.objectSig.descriptors, scene.descriptors);
    var good := GoodMatches(raw, MinDistance(raw), t.config.distanceThreshold);
    var locked := Locked(|good|, t.config.minMatches);
    var next := t.(sceneSig := scene, goodMatches := good, objectTransformed := [],
                   lifeTime := NextLifeTime(t.lifeTime, locked));
    if !locked then
      next
    else
      var objectPts := MatchedObjectPoints(good, t.objectSig.keypoints);
      var scenePts := MatchedScenePoints(good, scene.keypoints);
      if |scenePts| > MinPairs && |objectPts| > MinPairs then
        var h := engine.fit(objectPts, scenePts);
        next.(homography := Some(h), objectTransformed := Project(engine, h, t.objectPolygon))
      else
        next
  }

  /** What the reported count tells a caller: after a detection step it
      exceeds `minMatches` exactly when the lifetime rose or sits at full
      trust. */
  lemma NumGoodMatchesReportsLock(t: Tracker, frame: Frame, engine: Engine)
    requires t.Valid() && engine.Valid()
    ensures var r := DetectPixels(t, frame, engine);
      NumGoodMatches(r) as real > t.config.minMatches <==> (r.lifeTime > t.lifeTime || r.lifeTime == 1.0)
  {
  }

  /** Detection on an image: a frame smaller than the window is skipped and
      leaves the tracker as it was; otherwise one detection step runs on the
      centred window, which then lies inside the frame. */
  function DetectImage(t: Tracker, frame: Frame, engine: Engine): (r: Tracker)
    requires t.Valid() && engine.Valid()
    ensures frame.width < t.width || frame.height < t.height ==> r == t
    ensures frame.width >= t.width && frame.height >= t.height ==>
      && r == DetectPixels(t, frame, engine)
      && InsideFrame(CropRegion(frame.width, frame.height, t.width, t.height), frame.width, frame.height)
  {
    if frame.width < t.width || frame.height < t.height then t
    else DetectPixels(t, frame, engine)
  }

  /** Learning: the current scene becomes the object, its reference polygon is
      the bounding box of the scene keypoints (four origins when there are
      none), and the lifetime restarts at 0. Matches, homography and the
      transformed polygon are left as they were. */
  function Learn(t: Tracker): (r: Tracker)
    ensures r.objectSig == t.sceneSig
    ensures r.lifeTime == 0.0
    ensures var pts := Positions(t.sceneSig.keypoints);
      && |r.objectPolygon| == 4
      && (|pts| == 0 ==> forall i :: 0 <= i < 4 ==> r.objectPolygon[i] == Point(0.0, 0.0))
      && (|pts| > 0 ==> Spans(Box(r.objectPolygon[0].x, r.objectPolygon[0].y, r.objectPolygon[2].x, r.objectPolygon[2].y), pts))
      && r.objectPolygon[1] == Point(r.objectPolygon[2].x, r.objectPolygon[0].y)
      && r.objectPolygon[3] == Point(r.objectPolygon[0].x, r.objectPolygon[2].y)
    ensures r.config == t.config && r.width == t.width && r.height == t.height
    ensures r.sceneSig == t.sceneSig && r.goodMatches == t.goodMatches
    ensures r.homography == t.homography && r.objectTransformed == t.objectTransformed
    ensures t.Valid() ==> r.Valid()
  {
    t.(objectSig := t.sceneSig,
       objectPolygon := BoundingPolygon(Positions(t.sceneSig.keypoints)),
       lifeTime := 0.0)
  }

  /** The public point transform: only with full trust (lifetime at least 1),
      a non-empty input and a homography are the points mapped, each through
      the homography, keeping x and y and setting z to 0; otherwise they are
      returned unchanged. */
  function TransformPoints(t: Tracker, points: seq<OfPoint>, engine: Engine): (r: seq<OfPoint>)
    ensures t.lifeTime < 1.0 || points == [] || t.homography == None ==> r == points
    ensures t.lifeTime >= 1.0 && points != [] && t.homography.Some? ==>
      && |r| == |points|
      && forall i :: 0 <= i < |points| ==>
           var q := engine.project(t.homography.value, Point(points[i].x, points[i].y));
           r[i] == OfPoint(q.x, q.y, 0.0)
  {
    if t.lifeTime >= 1.0 && |points| > 0 then
      match t.homography
      case None => points
      case Some(h) =>
        var inputs := seq(|points|, i requires 0 <= i < |points| => Point(points[i].x, points[i].y));
        var results := Project(engine, h, inputs);
        seq(|results|, i requires 0 <= i < |results| => OfPoint(results[i].x, results[i].y, 0.0))
    else
      points
  }
}

=== FILE: tracking.dfy ===
/** Runs of the tracker over many frames and over arbitrary call sequences. */
module Tracking {
  import opened Numeric
  import opened Geometry
  import opened Features
  import opened Lifetime
  import opened SurfTracker

  /** Detection steps on a sequence of frames, in order. */
  function DetectFrames(t: Tracker, frames: seq<Frame>, engine: Engine): (r: Tracker)
    requires t.Valid() && engine.Valid()
    ensures r.Valid()
    ensures r.config == t.config && r.width == t.width && r.height == t.height
    ensures r.objectSig == t.objectSig && r.objectPolygon == t.objectPolygon
    decreases |frames|
  {
    if |frames| == 0 then t
    else DetectFrames(DetectPixels(t, frames[0], engine), frames[1..], engine)
  }

  /** The lock decision of each detection step of a run, in order. */
  function LockOutcomes(t: Tracker, frames: seq<Frame>, engine: Engine): (locks: seq<bool>)
    requires t.Valid() && engine.Valid()
    ensures |locks| == |frames|
    decreases |frames|
  {
    if |frames| == 0 then []
    else
      var next := DetectPixels(t, frames[0], engine);
      [Locked(|next.goodMatches|, t.config.minMatches)] + LockOutcomes(next, frames[1..], engine)
  }

  /** The lifetime after a run of detection steps is the counter run over
      their lock decisions. */
  lemma {:induction false} DetectFramesFollowsRun(t: Tracker, frames: seq<Frame>, engine: Engine)
    requires t.Valid() && engine.Valid()
    ensures DetectFrames(t, frames, engine).lifeTime == Run(t.lifeTime, LockOutcomes(t, frames, engine))
    decreases |frames|
  {
    if |frames| > 0 {
      var next := DetectPixels(t, frames[0], engine);
      DetectFramesFollowsRun(next, frames[1..], engine);
      assert LockOutcomes(t, frames, engine)[1..] == LockOutcomes(next, frames[1..], engine);
    }
  }

  /** Every frame of the run ends in a lock. */
  predicate LockedThroughout(t: Tracker, frames: seq<Frame>, engine: Engine)
    requires t.Valid() && engine.Valid()
    decreases |frames|
  {
    || |frames| == 0
    || (var next := DetectPixels(t, frames[0], engine);
        && Locked(|next.goodMatches|, t.config.minMatches)
        && LockedThroughout(next, frames[1..], engine))
  }

  /** No frame of the run ends in a lock. */
  predicate UnlockedThroughout(t: Tracker, frames: seq<Frame>, engine: Engine)
    requires t.Valid() && engine.Valid()
    decreases |frames|
  {
    || |frames| == 0
    || (var next := DetectPixels(t, frames[0], engine);
        && !Locked(|next.goodMatches|, t.config.minMatches)
        && UnlockedThroughout(next, frames[1..], engine))
  }

  /** A run of locked frames raises the lifetime by one step per frame until
      it saturates at 1: from 0, twenty frames give full trust. */
  lemma {:induction false} LockedFramesSaturate(t: Tracker, frames: seq<Frame>, engine: Engine)
    requires t.Valid() && engine.Valid()
    requires LockedThroughout(t, frames, engine)
    ensures DetectFrames(t, frames, engine).lifeTime == Min(1.0, t.lifeTime + |frames| as real * LifeStep)
    ensures t.lifeTime == 0.0 && |frames| >= 20 ==> DetectFrames(t, frames, engine).lifeTime == 1.0
    decreases |frames|
  {
    if |frames| > 0 {
      LockedFramesSaturate(DetectPixels(t, frames[0], engine), frames[1..], engine);
    }
  }

  /** A run of frames without a lock lowers the lifetime step by step to 0,
      leaves the last fitted homography in place and reports no transformed
      polygon. */
  lemma {:induction false} UnlockedFramesKeepStaleHomography(t: Tracker, frames: seq<Frame>, engine: Engine)
    requires t.Valid() && engine.Valid()
    requires UnlockedThroughout(t, frames, engine)
    ensures DetectFrames(t, frames, engine).lifeTime == Max(0.0, t.lifeTime - |frames| as real * LifeStep)
    ensures DetectFrames(t, frames, engine).homography == t.homography
    ensures |frames| > 0 ==> DetectFrames(t, frames, engine).objectTransformed == []
    decreases |frames|
  {
    if |frames| > 0 {
      UnlockedFramesKeepStaleHomography(DetectPixels(t, frames[0], engine), frames[1..], engine);
    }
  }

  /** Whatever the frames, the lifetime rises by at most one step per frame. */
  lemma {:induction false} DetectFramesRiseAtMostOneStepPerFrame(t: Tracker, frames: seq<Frame>, engine: Engine)
    requires t.Valid() && engine.Valid()
    ensures DetectFrames(t, frames, engine).lifeTime <= t.lifeTime + |frames| as real * LifeStep
    decreases |frames|
  {
    if |frames| > 0 {
      DetectFramesRiseAtMostOneStepPerFrame(DetectPixels(t, frames[0], engine), frames[1..], engine);
    }
  }

  /** Without a learned object nothing is ever matched: the lifetime stays
      at 0, no homography is fitted and no polygon is reported. */
  lemma {:induction false} UnlearnedTrackerStaysIdle(t: Tracker, frames: seq<Frame>, engine: Engine)
    requires t.Valid() && engine.Valid()
    requires t.objectSig == EmptySignature && t.config.minMatches >= 0.0 && t.lifeTime == 0.0
    ensures DetectFrames(t, frames, engine).lifeTime == 0.0
    ensures DetectFrames(t, frames, engine).homography == t.homography
    ensures |frames| > 0 ==> NumGoodMatches(DetectFrames(t, frames, engine)) == 0
    ensures |frames| > 0 ==> DetectFrames(t, frames, engine).objectTransformed == []
    decreases |frames|
  {
    if |frames| > 0 {
      var next := DetectPixels(t, frames[0], engine);
      assert next.goodMatches == [];
      UnlearnedTrackerStaysIdle(next, frames[1..], engine);
    }
  }

  /** A fresh tracker fed any frames, before anything is learned, reports no
      matches, no polygon, a lifetime of 0 and leaves points untransformed. */
  lemma FreshTrackerStaysIdle(frames: seq<Frame>, engine: Engine, points: seq<OfPoint>)
    requires engine.Valid()
    ensures var r := DetectFrames(Init(), frames, engine);
      && NumGoodMatches(r) == 0
      && r.objectTransformed == []
      && r.lifeTime == 0.0
      && r.homography == None
      && TransformPoints(r, points, engine) == points
  {
    UnlearnedTrackerStaysIdle(Init(), frames, engine);
  }

  /** After learning, fewer than twenty frames cannot restore full trust, so
      the point transform leaves points unchanged. */
  lemma TransformWaitsAfterLearn(t: Tracker, frames: seq<Frame>, engine: Engine, points: seq<OfPoint>)
    requires t.Valid() && engine.Valid() && |frames| < 20
    ensures TransformPoints(DetectFrames(Learn(t), frames, engine), points, engine) == points
  {
    DetectFramesRiseAtMostOneStepPerFrame(Learn(t), frames, engine);
  }

  /** The demo application's frame: learn first when asked, then detect. The
      object is the previous frame's scene, and the lifetime is one step or
      zero depending on the lock. */
  lemma LearnThenDetect(t: Tracker, frame: Frame, engine: Engine)
    requires t.Valid() && engine.Valid()
    ensures var r := DetectPixels(Learn(t), frame, engine);
      && r.objectSig == t.sceneSig
      && (Locked(|r.goodMatches|, t.config.minMatches) ==> r.lifeTime == LifeStep)
      && (!Locked(|r.goodMatches|, t.config.minMatches) ==> r.lifeTime == 0.0)
  {
  }

  /** With `minMatches` below 5, a frame can lock without enough pairs for a
      fit: the lifetime still rises, the homography is kept and no polygon is
      reported. */
  lemma LockWithoutFit(t: Tracker, frame: Frame, engine: Engine)
    requires t.Valid() && engine.Valid()
    requires var r := DetectPixels(t, frame, engine);
      Locked(|r.goodMatches|, t.config.minMatches) && |r.goodMatches| <= MinPairs
    ensures var r := DetectPixels(t, frame, engine);
      && r.lifeTime == Min(1.0, t.lifeTime + LifeStep)
      && r.homography == t.homography
      && r.objectTransformed == []
  {
  }

  /** After a resize, frames are checked against and cropped to the new
      window: a frame smaller than it is skipped, a larger one is cropped
      at ((W-w)/2, (H-h)/2) with size w×h, inside the frame. */
  lemma ResizeThenDetect(t: Tracker, w: int, h: int, frame: Frame, engine: Engine)
    requires t.Valid() && engine.Valid()
    ensures var resized := SetSize(t, w, h);
      var r := DetectImage(resized, frame, engine);
      && (frame.width < w || frame.height < h ==> r == resized)
      && (frame.width >= w && frame.height >= h ==>
            var roi := Rect((frame.width - w) / 2, (frame.height - h) / 2, w, h);
            && InsideFrame(roi, frame.width, frame.height)
            && r.sceneSig == engine.extract(frame, roi, t.config.detector))
  {
    var resized := SetSize(t, w, h);
    if frame.width >= w && frame.height >= h {
      var roi := CropRegion(frame.width, frame.height, w, h);
      assert roi == Rect((frame.width - w) / 2, (frame.height - h) / 2, w, h);
      assert DetectImage(resized, frame, engine) == DetectPixels(resized, frame, engine);
    }
  }

  /** Learning a scene of ten keypoints inside x in [10, 50] and y in [5, 40]
      that touch all four sides yields exactly the polygon (10,5), (50,5),
      (50,40), (10,40). */
  lemma LearnedBoundsExample(t: Tracker)
    requires |t.sceneSig.keypoints| == 10
    requires forall i :: 0 <= i < 10 ==>
      var p := t.sceneSig.keypoints[i].pt; 10.0 <= p.x <= 50.0 && 5.0 <= p.y <= 40.0
    requires t.sceneSig.keypoints[0].pt.x == 10.0 && t.sceneSig.keypoints[1].pt.x == 50.0
    requires t.sceneSig.keypoints[2].pt.y == 5.0 && t.sceneSig.keypoints[3].pt.y == 40.0
    ensures Learn(t).objectPolygon == [Point(10.0, 5.0), Point(50.0, 5.0), Point(50.0, 40.0), Point(10.0, 40.0)]
  {
  }

  /** A call a host application can make on the tracker. */
  datatype Event =
    | LearnFeatures
    | DetectImageCall(frame: Frame)
    | DetectPixelsCall(frame: Frame)
    | Resize(w: int, h: int)
    | Configure(config: Config)

  function Apply(t: Tracker, e: Event, engine: Engine): (r: Tracker)
    requires t.Valid() && engine.Valid()
    ensures r.Valid()
  {
    match e
    case LearnFeatures => Learn(t)
    case DetectImageCall(f) => DetectImage(t, f, engine)
    case DetectPixelsCall(f) => DetectPixels(t, f, engine)
    case Resize(w, h) => SetSize(t, w, h)
    case Configure(c) => t.(config := c)
  }

  /** Any sequence of calls keeps the tracker's invariant, in particular the
      lifetime within [0, 1]. */
  function Replay(t: Tracker, events: seq<Event>, engine: Engine): (r: Tracker)
    requires t.Valid() && engine.Valid()
    ensures r.Valid()
    ensures InUnitRange(r.lifeTime)
    decreases |events|
  {
    if |events| == 0 then t
    else Replay(Apply(t, events[0], engine), events[1..], engine)
  }
}
